=== FILE: README.md ===
# TimeToolbar window controller, modelled in Dafny

TimeToolbar docks a small translucent panel onto the Windows taskbar. The panel shows clocks for a few time zones and, optionally, CPU and RAM use. This project models the two pieces of logic in its window class `MainWindow` (MainWindow.xaml.cs):

- **Placement.** `PositionOnTaskbar` turns the display's work area and outer bounds, the window DPI, the Widgets setting, the user's `XOffset`, the number of time zones and the CPU/RAM flag into the rectangle it passes to `MoveAndResize`. The result is a strip that starts on the work area's bottom edge and is as tall as the taskbar (48 pixels when no strip is left below the work area). Its x is the work area's left edge plus 200 DIPs when Widgets is on, plus `XOffset`. Its width is `(showCpuRam ? 110 : 0) + 95 * zones + 24` DIPs. Offset and width are scaled by `dpi / 96` and truncated toward zero.
- **Tray and lifecycle.** The window registers a notification-area icon and subclasses itself. A right click on the icon queues a context menu with two items: a checkable "Show CPU and RAM" item and "Quit". Command 1 flips the CPU/RAM flag, sets the CPU/RAM panel and the separator to match, and repositions the window. Command 2 removes the icon and closes the window. The Closed handler stops both timers, removes the icon and disposes the counters.

Layout:

- `geometry.dfy` (module `Geometry`) holds `RectInt32` and the scaling `Scale(v, dpi) = TruncDiv(v * dpi, 96)`, which models C#'s `(int)(v * (dpi / 96.0))`. When the DPI is a multiple of 3, as 96, 120, 144, 168 and 192 are, `dpi / 96.0` is a dyadic fraction, so the double product is exact and the two agree.
- `placement.dfy` (module `Placement`) holds the rectangle computation and its properties.
- `tray.dfy` (module `Tray`) covers the messages, the menu, the icon data and the recorded host calls (`Effect`). It also has `WindowState` and one function per handler giving the state that handler leaves behind, with lemmas about those functions.
- `window.dfy` (module `Toolbar`) holds class `MainWindow`. Its fields are updated in place by its methods. Each method is proved to leave exactly the state the matching `Tray` function describes.

Host inputs become parameters:

- The display geometry, the DPI and the Widgets registry value form `Placement.Display`.
- The command `TrackPopupMenu` returns is a plain integer.
- `XOffset` and the zone count are the window's `settings`.

Host calls whose results the window ignores (Shell_NotifyIcon, MoveAndResize, timer start and stop, Dispose) are appended to `trace`. This makes their order provable.

Behaviour of the code worth noting:

- The 48-pixel fallback replaces only a non-positive strip (MainWindow.xaml.cs:211-212). A measured strip below 48 pixels is used as it is.
- The content widths are 110 DIPs for the CPU/RAM panel, 95 per time zone and a fixed 24 (MainWindow.xaml.cs:221-222).
- Quit removes the icon and then closes the window (MainWindow.xaml.cs:497-498). The Closed handler then stops both timers and removes the icon a second time (MainWindow.xaml.cs:519-521). On this path the icon is deleted before the timers stop.
- The topmost timer keeps running while the context menu is open (MainWindow.xaml.cs:469-501 does not touch it).

`Window.Close` is modelled as raising `Closed` synchronously, so `Close` runs the Closed handler.

## Model

| member | source | states |
|---|---|---|
| Geometry.TruncDiv | MainWindow.xaml.cs:223 | the `(int)` cast of an exact quotient: `\|q\|*d <= \|n\| < (\|q\|+1)*d`, with q's sign agreeing with n's (truncation toward zero, not Dafny's floor) |
| Geometry.Scale | MainWindow.xaml.cs:216-226 | no contract of its own: `(int)(v * (dpi / 96.0))` as exact truncation toward zero; described by TruncDiv, ScaleAt96, ScaleIntegral, ScaleOdd, ScaleMonotone, ScaleGrows, ScaleNegativeIff, ScalePositiveIff and ScaleAdditive |
| Geometry.ScaleAt96 | MainWindow.xaml.cs:216-217 | at 96 DPI the scale `dpi/96` is the identity |
| Geometry.ScaleIntegral | MainWindow.xaml.cs:217-226 | at DPI `96*k` a DIP value scales to exactly `v*k` pixels |
| Geometry.ScaleOdd | MainWindow.xaml.cs:226 | scaling a negative offset mirrors scaling its magnitude (truncation is symmetric about zero) |
| Geometry.ScaleMonotone | MainWindow.xaml.cs:223-226 | a larger DIP value never scales to fewer pixels |
| Geometry.ScaleGrows | MainWindow.xaml.cs:223 | at 96 DPI or more a non-negative length never shrinks when scaled |
| Geometry.ScaleNegativeIff | MainWindow.xaml.cs:226 | a value scales to a negative pixel count exactly when `v*dpi <= -96` |
| Geometry.ScalePositiveIff | MainWindow.xaml.cs:223 | a value scales to a positive pixel count exactly when `v*dpi >= 96` |
| Geometry.ScaleAdditive | MainWindow.xaml.cs:222-223 | for non-negative parts, the scaled sum is the sum of the scaled parts or one pixel more |
| Placement.TaskbarHeight | MainWindow.xaml.cs:210-212 | always positive; when the display extends below the work area, top plus height reaches the display's bottom exactly; otherwise the 48 fallback |
| Placement.ContentWidthDips | MainWindow.xaml.cs:220-222 | the content is at least 24 DIPs wide, at least 134 with the CPU/RAM panel shown, and at least 119 with one zone or more |
| Placement.BaseOffset | MainWindow.xaml.cs:214 | no contract of its own: 200 DIPs when Widgets is enabled, 0 otherwise; described by RectAt96 and LeftOfWorkAreaIff |
| Placement.TaskbarRect | MainWindow.xaml.cs:209-229 | no contract of its own: the rectangle passed to MoveAndResize; described by RectCoversTaskbar, RectAt96, RectAtIntegralScale, ExtraZoneWidth, CpuRamPanelWidth, WidthCoversContent, WidthPositiveIff, LeftOfWorkAreaIff, OffsetMonotone and the three examples |
| Placement.RectCoversTaskbar | MainWindow.xaml.cs:209-212 | the applied rectangle starts at `workArea.Y + workArea.Height`, has positive height, ends on the display's bottom edge when a strip is visible, and is otherwise 48 tall |
| Placement.RectAt96 | MainWindow.xaml.cs:214-228 | at 96 DPI, x is `workArea.X + baseOffset + XOffset` (negative offsets unclamped) and width is `(show ? 110 : 0) + 95*zones + 24` |
| Placement.RectAtIntegralScale | MainWindow.xaml.cs:216-228 | at DPI `96*k`, x offset and width are the DIP values times k |
| Placement.ExtraZoneWidth | MainWindow.xaml.cs:220-223 | one more zone adds exactly 95 DIPs; the width grows by `Scale(95)` or one pixel more, strictly from 2 DPI up; x, y and height unchanged |
| Placement.CpuRamPanelWidth | MainWindow.xaml.cs:221-223 | showing the CPU/RAM panel adds 110 DIPs; the width grows by `Scale(110)` or one pixel more; x, y and height unchanged |
| Placement.WidthCoversContent | MainWindow.xaml.cs:222-223 | from 96 DPI up the width in pixels is at least the content's DIP count, so at least 24 pixels, even with no zones |
| Placement.WidthPositiveIff | MainWindow.xaml.cs:222-223 | the width is positive exactly when `contentWidthDips * dpi >= 96` |
| Placement.LeftOfWorkAreaIff | MainWindow.xaml.cs:214-226 | the window starts left of the work area exactly when `(baseOffset + XOffset) * dpi <= -96`: a negative offset is not clamped |
| Placement.OffsetMonotone | MainWindow.xaml.cs:226 | a larger `XOffset` never moves the window left |
| Placement.ExampleFullHd | MainWindow.xaml.cs:201-230 | 1920x1080 with a 40-pixel taskbar, 96 DPI, offset 5, two zones, CPU/RAM shown gives (5, 1040, 324, 40) |
| Placement.ExampleScaled | MainWindow.xaml.cs:201-230 | the same layout at 144 DPI with Widgets on gives (307, 1560, 486, 60) |
| Placement.ExampleAutoHidden | MainWindow.xaml.cs:210-212 | a work area reaching the display bottom gives the 48-pixel fallback height |
| Tray.TrayIconData | MainWindow.xaml.cs:450-459 | the icon is registered with id 1, callback message 0x8001, the icon, message and tip flags, and the tooltip "TimeToolbar" |
| Tray.TrayMenu | MainWindow.xaml.cs:471-477 | three entries: item 1, checked exactly when CPU/RAM is shown; a separator with null text; item 2 (Quit), unchecked |
| Tray.IsTrayRightClick | MainWindow.xaml.cs:506-508 | no contract of its own: callback message 0x8001, icon id 1 in the low 32 bits of wParam and WM_RBUTTONUP in the low 32 bits of lParam; described by RightClickFilter and RightClickIgnoresHighBits |
| Tray.Positioned | MainWindow.xaml.cs:201-230 | no contract of its own: the state after one positioning pass; described by RepositionDeterministic and HandlersPreserveConsistent |
| Tray.Toggled | MainWindow.xaml.cs:491-493 | no contract of its own: flag flipped, panel and separator following the new flag; described by ToggleShowsPanels and ToggleTwice |
| Tray.AfterMenu | MainWindow.xaml.cs:488-500 | no contract of its own: the state after the returned command; described by ToggleShowsPanels, ToggleTwice, OtherCommandsInert, QuitSequence and HandlersPreserveConsistent |
| Tray.AfterMessage | MainWindow.xaml.cs:503-515 | no contract of its own: one more queued menu for the tray right click; described by MessageQueuesMenu |
| Tray.TornDown | MainWindow.xaml.cs:517-525 | no contract of its own: the Closed handler's state; described by TeardownOrder |
| Tray.ClosedState | MainWindow.xaml.cs:498 | no contract of its own: closed, then torn down; described by QuitSequence and HandlersPreserveConsistent |
| Tray.Initial | MainWindow.xaml.cs:48-104 | no contract of its own: the state after construction; described by InitialConsistent |
| Tray.RightClickFilter | MainWindow.xaml.cs:506-508 | for 32-bit parameters, a menu is queued exactly when `uMsg == 0x8001`, `wParam == 1` and `lParam == 0x0205` |
| Tray.RightClickIgnoresHighBits | MainWindow.xaml.cs:506-508 | the `(int)` and `(uint)(int)` casts compare only the low 32 bits: adding any multiples of 2^32 to wParam and to lParam, independently, leaves the verdict unchanged in both directions |
| Tray.MessageQueuesMenu | MainWindow.xaml.cs:503-515 | a message queues one menu exactly when it is the tray right click; nothing else changes |
| Tray.ToggleShowsPanels | MainWindow.xaml.cs:490-495 | command 1 flips the flag, shows panel and separator exactly when the new flag holds, and applies the rectangle for the new flag |
| Tray.ToggleTwice | MainWindow.xaml.cs:490-495 | two toggles on one display restore the flag, both panels and the rectangle; a window already placed for that display is back in its original state apart from the trace |
| Tray.OtherCommandsInert | MainWindow.xaml.cs:488-500 | any command other than 1 or 2, including 0 for a dismissed menu, changes nothing |
| Tray.QuitSequence | MainWindow.xaml.cs:496-499 | Quit deletes the icon, closes, stops both timers, deletes the icon again and disposes the counters, in that order; it ends closed with nothing running |
| Tray.TeardownOrder | MainWindow.xaml.cs:517-525 | the Closed handler stops both timers, every stop precedes the icon deletion, and it leaves nothing running or registered |
| Tray.RepositionDeterministic | MainWindow.xaml.cs:201-230 | a second pass with unchanged inputs applies the same rectangle and changes nothing else |
| Tray.InitialConsistent | MainWindow.xaml.cs:48-104 | after construction the flag is set, both panels are visible, the icon is registered, both timers run and the window is placed for the CPU/RAM layout |
| Tray.HandlersPreserveConsistent | MainWindow.xaml.cs:469-525 | positioning, menu commands, messages, icon removal and closing keep the panels in step with the flag and the height positive, and a closed window has nothing running |
| Toolbar.MainWindow.constructor | MainWindow.xaml.cs:48-104 | an empty zone list becomes two zones; the window is positioned for the display reported while configuring, the icon added, both timers started, and the first refresh repositions for the display reported then (the path on which every zone id resolves) |
| Toolbar.MainWindow.PositionOnTaskbar | MainWindow.xaml.cs:201-230 | the new state is `Positioned`: `lastRect` is `TaskbarRect` of the current display, settings and flag, and one MoveAndResize is recorded; since a valid window has at least one zone (an empty list becomes two), its width is at least `Scale(95 + 24, dpi)` pixels at every DPI, and at least 95 + 24 = 119 pixels from 96 DPI up |
| Toolbar.MainWindow.SetupTrayIcon | MainWindow.xaml.cs:446-462 | registers the icon with `TrayIconData` and records NIM_ADD |
| Toolbar.MainWindow.RemoveTrayIcon | MainWindow.xaml.cs:464-467 | unregisters the icon and records NIM_DELETE |
| Toolbar.MainWindow.ShowTrayContextMenu | MainWindow.xaml.cs:469-501 | shows `TrayMenu` of the current flag and leaves the state `AfterMenu` gives for the returned command |
| Toolbar.MainWindow.SubclassProc | MainWindow.xaml.cs:503-515 | forwards every message unchanged and queues a menu exactly for the tray right click |
| Toolbar.MainWindow.RunQueuedMenu | MainWindow.xaml.cs:510 | the dispatcher takes one queued request and runs ShowTrayContextMenu |
| Toolbar.MainWindow.Close | MainWindow.xaml.cs:498 | the window closes and its Closed handler runs, leaving the `ClosedState` |
| Toolbar.MainWindow.OnClosed | MainWindow.xaml.cs:517-525 | the state is `TornDown`, and in the calls it made both timer stops precede the icon deletion |

## Left out

- Window chrome (`ConfigureWindow` apart from its final positioning, `TransparentBackdrop`): style bits, DWM attributes and the acrylic backdrop are foreign calls with no state the model reads. `ConfigureWindow` also installs the subclass procedure (MainWindow.xaml.cs:151-152) before the icon exists, and nothing removes it; the model treats the hook as installed for the window's whole life, so `SubclassProc` can run in any state, closed included.
- The start-up hide/show cycle (MainWindow.xaml.cs:90-101), including the off-screen `Move` and the later positioning pass. This is scheduling around the backdrop. `lastRect` is the rectangle last given to MoveAndResize, not the window's current position.
- `TopmostTimer_Tick` is a single SetWindowPos. `DataTimer_Tick` updates clock and CPU/RAM texts through TimeZoneInfo, a performance counter and WMI. Timers appear only as running flags. When every configured zone id resolves, a data tick ends with the positioning pass `PositionOnTaskbar`; the model calls it once at construction, for the first tick. The zone loop (MainWindow.xaml.cs:394-400) has no guard, so an unknown zone id throws before that pass (MainWindow.xaml.cs:413).
- Toolbar.MainWindow.constructor: the model follows the path on which every configured zone id resolves. An unknown id makes `FindSystemTimeZoneById` throw in the first data tick (MainWindow.xaml.cs:88, 396-397). That throw leaves `MainWindow()` after the icon is added (:75) and both timers start (:80, :85), but before the second positioning pass and before the Closed handler is attached (:103). The icon then stays registered and the timers keep running with no teardown. The model does not capture this.
- `GetCurrentRamUsage`, `AreWindowsWidgetsEnabled` and `CpuRamPanel_DoubleTapped`: WMI, the registry and process launch. The Widgets value is the input `Display.widgetsEnabled`.
- `BuildUI`, `CreateCpuRamPanel` and `CreateTimeZonePanel` only build controls. The two panels' visibility is the only UI state modelled.
- Placement.TaskbarRect: integers are unbounded, so 32-bit wrap-around in `workArea.Y + workArea.Height`, `tzCount * 95` and the x sum is not modelled, and neither is the `(int)` cast of a double outside the int range.
- Geometry.Scale: for a DPI that is not a multiple of 3, `dpi / 96.0` is rounded in double precision. The model uses the exact rational, which can differ from the double result by one pixel at a truncation boundary.
- Menu and cursor handles (CreatePopupMenu, DestroyMenu, GetCursorPos, SetForegroundWindow) are not modelled. The menu's entries are returned and TrackPopupMenu's answer is a parameter.
- The results of Shell_NotifyIcon and DispatcherQueue.TryEnqueue are ignored by the code. The model records that the icon is registered, or a menu queued, once the call is made.
- DefSubclassProc's return value is foreign. SubclassProc returns the message it forwards instead.
- The disposals' swallowed exceptions (MainWindow.xaml.cs:523-524) are not modelled; each disposal is recorded as attempted.
- Drag repositioning and offset persistence do not exist in this window; `XOffset` is a fixed setting.
- NativeMethods.cs contributes only constants (used as literals here). MainForm.cs, MainForm.Designer.cs, Program.cs, App.xaml.cs, Interop.cs and Settings.cs are not part of this model.

=== FILE: geometry.dfy ===
/**
 * Integer rectangles in physical pixels and the DPI scaling with which the
 * toolbar turns device-independent pixels (DIPs) into physical pixels.
 *
 * The window code computes `(int)(v * (dpi / 96.0))`: a double product cast
 * back to `int`, which truncates toward zero.  Here the scale is the exact
 * rational `dpi / 96` and the cast is `TruncDiv`.  For every DPI that is a
 * multiple of 3 (the standard 96, 120, 144, 168 and 192 among them) the factor
 * `dpi / 96.0` is a dyadic fraction, so the double arithmetic is exact for all
 * values a window position can take and the two agree.
 */
module Geometry {

  /** Windows.Graphics.RectInt32: origin and size in physical pixels. */
  datatype RectInt32 = RectInt32(x: int, y: int, width: int, height: int)
  {
    /** The first row below the rectangle (`Y + Height`). */
    function Bottom(): int { y + height }
  }

  function Abs(n: int): nat { if n < 0 then -n else n }

  /**
   * `n / d` rounded toward zero, as C#'s `(int)` cast rounds an exact
   * quotient.  Dafny's own `/` rounds negative quotients downward instead.
   */
  function TruncDiv(n: int, d: int): (q: int)
    requires d > 0
    ensures Abs(q) * d <= Abs(n) < (Abs(q) + 1) * d
    ensures n >= 0 ==> q >= 0
    ensures n <= 0 ==> q <= 0
  {
    if n >= 0 then n / d else -((-n) / d)
  }

  /** A length in DIPs scaled to physical pixels at `dpi`: `(int)(v * (dpi / 96.0))`. */
  function Scale(v: int, dpi: nat): int
  {
    TruncDiv(v * dpi, 96)
  }

  /** An exact multiple of the divisor divides without loss. */
  lemma TruncDivExact(m: int, d: int)
    requires d > 0
    ensures TruncDiv(m * d, d) == m
  {
    if m >= 0 {
      DivOfDecomposition(m * d, d, m, 0);
    } else {
      assert -(m * d) == (-m) * d;
      DivOfDecomposition((-m) * d, d, -m, 0);
    }
  }

  /** Truncation toward zero never decreases when its dividend grows. */
  lemma TruncDivMonotone(a: int, b: int, d: int)
    requires d > 0 && a <= b
    ensures TruncDiv(a, d) <= TruncDiv(b, d)
  {
    if 0 <= a {
      NonNegDivMonotone(a, b, d);
    } else if b < 0 {
      NonNegDivMonotone(-b, -a, d);
    }
  }

  /** Floor division by a positive divisor is monotone on non-negative dividends. */
  lemma NonNegDivMonotone(a: int, b: int, d: int)
    requires d > 0 && 0 <= a <= b
    ensures a / d <= b / d
  {
    if a / d > b / d {
      // then a >= d * (b / d + 1) > b
      MulMonotone(d, b / d + 1, a / d);
      assert false;
    }
  }

  /** A negative dividend truncates to a negative quotient exactly when it reaches `-d`. */
  lemma TruncDivNegativeIff(n: int, d: int)
    requires d > 0
    ensures TruncDiv(n, d) < 0 <==> n <= -d
  {
    var q := TruncDiv(n, d);
    if q < 0 {
      assert Abs(q) >= 1;
      assert 1 * d <= Abs(q) * d;
    }
  }

  /** At the base DPI of 96 the scale is the identity. */
  lemma ScaleAt96(v: int)
    ensures Scale(v, 96) == v
  {
    TruncDivExact(v, 96);
  }

  /** At an integral scale factor (96, 192, 288 DPI, ...) scaling multiplies exactly. */
  lemma ScaleIntegral(v: int, k: nat)
    ensures Scale(v, 96 * k) == v * k
  {
    assert v * (96 * k) == (v * k) * 96;
    TruncDivExact(v * k, 96);
  }

  /** Scaling is odd: C#'s truncation is symmetric about zero. */
  lemma ScaleOdd(v: int, dpi: nat)
    ensures Scale(-v, dpi) == -Scale(v, dpi)
  {
    assert (-v) * dpi == -(v * dpi);
  }

  /** A larger DIP quantity never scales to fewer pixels. */
  lemma ScaleMonotone(v: int, w: int, dpi: nat)
    requires v <= w
    ensures Scale(v, dpi) <= Scale(w, dpi)
  {
    assert v * dpi <= w * dpi by {
      assert w * dpi - v * dpi == (w - v) * dpi;
    }
    TruncDivMonotone(v * dpi, w * dpi, 96);
  }

  /** At 96 DPI or more, a non-negative length never shrinks when scaled. */
  lemma ScaleGrows(v: int, dpi: nat)
    requires v >= 0 && dpi >= 96
    ensures Scale(v, dpi) >= v
  {
    assert v * 96 <= v * dpi;
    TruncDivMonotone(v * 96, v * dpi, 96);
    TruncDivExact(v, 96);
  }

  /** A length scales to a negative pixel count exactly when `v * dpi` reaches -96. */
  lemma ScaleNegativeIff(v: int, dpi: nat)
    ensures Scale(v, dpi) < 0 <==> v * dpi <= -96
  {
    TruncDivNegativeIff(v * dpi, 96);
  }

  /** A length scales to a positive pixel count exactly when `v * dpi` reaches 96. */
  lemma ScalePositiveIff(v: int, dpi: nat)
    ensures Scale(v, dpi) > 0 <==> v * dpi >= 96
  {
    ScaleOdd(v, dpi);
    assert (-v) * dpi == -(v * dpi);
    TruncDivNegativeIff((-v) * dpi, 96);
  }

  /**
   * Scaling a sum of two non-negative lengths gives the sum of the scaled
   * lengths, or one pixel more: truncation loses less than a pixel per term.
   */
  lemma ScaleAdditive(a: int, b: int, dpi: nat)
    requires a >= 0 && b >= 0
    ensures Scale(a, dpi) + Scale(b, dpi) <= Scale(a + b, dpi) <= Scale(a, dpi) + Scale(b, dpi) + 1
  {
    var x, y := a * dpi, b * dpi;
    assert (a + b) * dpi == x + y;
    assert x >= 0 && y >= 0;
    var qx, rx := x / 96, x % 96;
    var qy, ry := y / 96, y % 96;
    assert x + y == 96 * (qx + qy) + (rx + ry);
    assert 0 <= rx + ry < 192;
    if rx + ry < 96 {
      DivOfDecomposition(x + y, 96, qx + qy, rx + ry);
    } else {
      DivOfDecomposition(x + y, 96, qx + qy + 1, rx + ry - 96);
    }
  }

  /** Euclidean division is determined by any decomposition with an in-range remainder. */
  lemma DivOfDecomposition(n: int, d: int, q: int, r: int)
    requires d > 0 && n == d * q + r && 0 <= r < d
    ensures n / d == q
  {
    // two decompositions with remainders in [0, d) would differ by a multiple of d
    if n / d < q {
      MulMonotone(d, n / d + 1, q);
      assert false;
    } else if n / d > q {
      MulMonotone(d, q + 1, n / d);
      assert false;
    }
  }

  /** Multiplying by a positive factor keeps order. */
  lemma MulMonotone(d: int, x: int, y: int)
    requires d > 0 && x <= y
    ensures d * x <= d * y
  {
    assert d * y - d * x == d * (y - x);
  }
}

=== FILE: placement.dfy ===
/**
 * The rectangle `PositionOnTaskbar` gives the toolbar window: a strip that
 * starts at the left of the display's work area (shifted past the Widgets
 * button when that is enabled, and by the user's `XOffset`), sits on the
 * taskbar, is as tall as the taskbar and as wide as its content.
 *
 * The host queries become the fields of `Display`: the display area's work
 * area and outer bounds, the window's DPI and whether Windows Widgets is
 * enabled (the `TaskbarDa` registry value).
 */
module Placement {
  import opened Geometry

  /** What the window learns from the host on one positioning pass. */
  datatype Display = Display(workArea: RectInt32, outerBounds: RectInt32, dpi: nat, widgetsEnabled: bool)

  /** Height used when the work area reaches the bottom of the display (auto-hidden or moved taskbar). */
  const FallbackTaskbarHeight: int := 48
  /** DIPs reserved left of the toolbar for the Widgets button. */
  const WidgetsWidth: int := 200
  /** Width of the CPU/RAM panel in DIPs. */
  const CpuRamWidth: int := 110
  /** Width of one time-zone panel in DIPs. */
  const ZoneWidth: int := 95
  /** A fixed 24 DIPs, added whatever is shown. */
  const FixedWidth: int := 24

  /** The taskbar begins where the work area ends. */
  function TaskbarTop(workArea: RectInt32): int
  {
    workArea.Bottom()
  }

  /**
   * The strip between the work area and the display's bottom edge, or the
   * fallback height when there is no such strip.
   */
  function TaskbarHeight(d: Display): (h: int)
    ensures h > 0
    ensures d.outerBounds.Bottom() > TaskbarTop(d.workArea) ==> TaskbarTop(d.workArea) + h == d.outerBounds.Bottom()
    ensures d.outerBounds.Bottom() <= TaskbarTop(d.workArea) ==> h == FallbackTaskbarHeight
  {
    var h := d.outerBounds.Bottom() - TaskbarTop(d.workArea);
    if h <= 0 then FallbackTaskbarHeight else h
  }

  /** DIPs skipped at the left of the work area before the toolbar starts. */
  function BaseOffset(widgetsEnabled: bool): int
  {
    if widgetsEnabled then WidgetsWidth else 0
  }

  /** The toolbar's content width in DIPs. */
  function ContentWidthDips(showCpuRam: bool, tzCount: nat): (w: int)
    ensures w >= FixedWidth
    ensures showCpuRam ==> w >= CpuRamWidth + FixedWidth
    ensures tzCount >= 1 ==> w >= ZoneWidth + FixedWidth
  {
    (if showCpuRam then CpuRamWidth else 0) + tzCount * ZoneWidth + FixedWidth
  }

  /** The rectangle `PositionOnTaskbar` hands to `MoveAndResize`. */
  function TaskbarRect(d: Display, xOffset: int, tzCount: nat, showCpuRam: bool): RectInt32
  {
    RectInt32(
      d.workArea.x + Scale(BaseOffset(d.widgetsEnabled) + xOffset, d.dpi),
      TaskbarTop(d.workArea),
      Scale(ContentWidthDips(showCpuRam, tzCount), d.dpi),
      TaskbarHeight(d))
  }

  /**
   * The rectangle starts on the work area's bottom edge and, when the
   * taskbar is visible below the work area, ends exactly on the display's
   * bottom edge; otherwise it is 48 pixels tall.  Its height is always positive.
   */
  lemma RectCoversTaskbar(d: Display, xOffset: int, tzCount: nat, showCpuRam: bool)
    ensures var r := TaskbarRect(d, xOffset, tzCount, showCpuRam);
      && r.y == d.workArea.y + d.workArea.height
      && r.height > 0
      && (d.outerBounds.Bottom() > r.y ==> r.Bottom() == d.outerBounds.Bottom())
      && (d.outerBounds.Bottom() <= r.y ==> r.height == 48)
  {
  }

  /** At 96 DPI nothing is scaled: the offsets and widths apply as DIPs. */
  lemma RectAt96(d: Display, xOffset: int, tzCount: nat, showCpuRam: bool)
    requires d.dpi == 96
    ensures var r := TaskbarRect(d, xOffset, tzCount, showCpuRam);
      && r.x == d.workArea.x + BaseOffset(d.widgetsEnabled) + xOffset
      && r.width == (if showCpuRam then 110 else 0) + 95 * tzCount + 24
  {
    ScaleAt96(BaseOffset(d.widgetsEnabled) + xOffset);
    ScaleAt96(ContentWidthDips(showCpuRam, tzCount));
  }

  /** At a whole-number scale factor `k` (DPI `96 * k`) offsets and widths scale without rounding. */
  lemma RectAtIntegralScale(d: Display, k: nat, xOffset: int, tzCount: nat, showCpuRam: bool)
    requires d.dpi == 96 * k
    ensures var r := TaskbarRect(d, xOffset, tzCount, showCpuRam);
      && r.x == d.workArea.x + (BaseOffset(d.widgetsEnabled) + xOffset) * k
      && r.width == ContentWidthDips(showCpuRam, tzCount) * k
  {
    ScaleIntegral(BaseOffset(d.widgetsEnabled) + xOffset, k);
    ScaleIntegral(ContentWidthDips(showCpuRam, tzCount), k);
  }

  /**
   * One more time zone adds exactly 95 DIPs of content, so the window grows
   * by 95 DIPs scaled, give or take the one pixel truncation can shift, and
   * strictly grows from 2 DPI up; nothing else about the rectangle changes.
   */
  lemma ExtraZoneWidth(d: Display, xOffset: int, tzCount: nat, showCpuRam: bool)
    ensures ContentWidthDips(showCpuRam, tzCount + 1) == ContentWidthDips(showCpuRam, tzCount) + 95
    ensures var r, r' := TaskbarRect(d, xOffset, tzCount, showCpuRam), TaskbarRect(d, xOffset, tzCount + 1, showCpuRam);
      && r.width + Scale(95, d.dpi) <= r'.width <= r.width + Scale(95, d.dpi) + 1
      && (d.dpi >= 2 ==> r'.width > r.width)
      && r'.x == r.x && r'.y == r.y && r'.height == r.height
  {
    var w := ContentWidthDips(showCpuRam, tzCount);
    ScaleAdditive(w, 95, d.dpi);
    ScalePositiveIff(95, d.dpi);
  }

  /**
   * Showing the CPU/RAM panel adds 110 DIPs of content, so the window is
   * wider by 110 DIPs scaled, give or take one pixel.
   */
  lemma CpuRamPanelWidth(d: Display, xOffset: int, tzCount: nat)
    ensures ContentWidthDips(true, tzCount) == ContentWidthDips(false, tzCount) + 110
    ensures var shown, hidden := TaskbarRect(d, xOffset, tzCount, true), TaskbarRect(d, xOffset, tzCount, false);
      && hidden.width + Scale(110, d.dpi) <= shown.width <= hidden.width + Scale(110, d.dpi) + 1
      && shown.x == hidden.x && shown.y == hidden.y && shown.height == hidden.height
  {
    ScaleAdditive(ContentWidthDips(false, tzCount), 110, d.dpi);
  }

  /** From 96 DPI up the width in pixels is at least the content's DIP count: never empty, even with no zones. */
  lemma WidthCoversContent(d: Display, xOffset: int, tzCount: nat, showCpuRam: bool)
    requires d.dpi >= 96
    ensures TaskbarRect(d, xOffset, tzCount, showCpuRam).width >= ContentWidthDips(showCpuRam, tzCount) >= 24
  {
    ScaleGrows(ContentWidthDips(showCpuRam, tzCount), d.dpi);
  }

  /** The window has a positive width exactly when its content reaches one physical pixel. */
  lemma WidthPositiveIff(d: Display, xOffset: int, tzCount: nat, showCpuRam: bool)
    ensures TaskbarRect(d, xOffset, tzCount, showCpuRam).width > 0
        <==> ContentWidthDips(showCpuRam, tzCount) * d.dpi >= 96
  {
    ScalePositiveIff(ContentWidthDips(showCpuRam, tzCount), d.dpi);
  }

  /**
   * A negative offset is not clamped: the window starts left of the work
   * area exactly when the total offset scales to at least one pixel leftward.
   */
  lemma LeftOfWorkAreaIff(d: Display, xOffset: int, tzCount: nat, showCpuRam: bool)
    ensures TaskbarRect(d, xOffset, tzCount, showCpuRam).x < d.workArea.x
        <==> (BaseOffset(d.widgetsEnabled) + xOffset) * d.dpi <= -96
  {
    ScaleNegativeIff(BaseOffset(d.widgetsEnabled) + xOffset, d.dpi);
  }

  /** A larger offset never places the window further left. */
  lemma OffsetMonotone(d: Display, xOffset: int, xOffset': int, tzCount: nat, showCpuRam: bool)
    requires xOffset <= xOffset'
    ensures TaskbarRect(d, xOffset, tzCount, showCpuRam).x <= TaskbarRect(d, xOffset', tzCount, showCpuRam).x
  {
    ScaleMonotone(BaseOffset(d.widgetsEnabled) + xOffset, BaseOffset(d.widgetsEnabled) + xOffset', d.dpi);
  }

  /**
   * A 1920x1080 display at 100% with a 40-pixel taskbar, Widgets off,
   * offset 5, two zones and the CPU/RAM panel shown.
   */
  lemma ExampleFullHd()
    ensures TaskbarRect(Display(RectInt32(0, 0, 1920, 1040), RectInt32(0, 0, 1920, 1080), 96, false), 5, 2, true)
         == RectInt32(5, 1040, 324, 40)
  {
  }

  /** The same layout at 150% (144 DPI) with Widgets on: 205 DIPs become 307 pixels, 324 become 486. */
  lemma ExampleScaled()
    ensures TaskbarRect(Display(RectInt32(0, 0, 2880, 1560), RectInt32(0, 0, 2880, 1620), 144, true), 5, 2, true)
         == RectInt32(307, 1560, 486, 60)
  {
  }

  /** An auto-hidden taskbar leaves no strip: the window takes the 48-pixel fallback height below the work area. */
  lemma ExampleAutoHidden()
    ensures TaskbarRect(Display(RectInt32(0, 0, 1920, 1080), RectInt32(0, 0, 1920, 1080), 96, false), 0, 1, false)
         == RectInt32(0, 1080, 119, 48)
  {
  }
}

=== FILE: tray.dfy ===
/**
 * The notification-area icon, its context menu and the window's lifecycle,
 * stated over values.  `WindowState` is what the toolbar window holds (the
 * CPU/RAM flag, the visibility of two panels, the tray registration, two
 * timers, whether it has closed, menus waiting in the dispatcher queue, the
 * rectangle last applied) plus `trace`, the host calls it has made in order.
 * Each function below is the state one handler of the window leaves behind;
 * the window class in module Toolbar is proved to follow them.
 */
module Tray {
  import opened Geometry
  import opened Placement

  datatype Option<T> = None | Some(value: T)

  /** The icon's callback message, `WM_APP + 1`. */
  const WM_TRAYICON: int := 0x8000 + 1
  const TRAY_ICON_ID: int := 1
  const WM_RBUTTONUP: int := 0x0205

  const NIF_MESSAGE: bv32 := 0x1
  const NIF_ICON: bv32 := 0x2
  const NIF_TIP: bv32 := 0x4

  const MF_STRING: bv32 := 0x0
  const MF_SEPARATOR: bv32 := 0x800
  const MF_CHECKED: bv32 := 0x8
  const MF_UNCHECKED: bv32 := 0x0

  /** Menu command ids; `TrackPopupMenu` returns 0 when the menu is dismissed. */
  const CMD_TOGGLE_CPU_RAM: int := 1
  const CMD_QUIT: int := 2

  /** The configuration the window reads when positioning. */
  datatype Config = Config(xOffset: int, tzCount: nat)

  /** The parts of NOTIFYICONDATA the model follows (the window and icon handles are left out). */
  datatype NotifyIconData = NotifyIconData(uID: int, uFlags: bv32, uCallbackMessage: int, szTip: string)

  /** A message as the subclass procedure receives it; `wParam` and `lParam` are pointer-sized. */
  datatype WindowMessage = WindowMessage(uMsg: int, wParam: int, lParam: int)

  /** One AppendMenu call: flags, command id and text (`None` for the separator's null). */
  datatype MenuEntry = MenuEntry(flags: bv32, id: int, text: Option<string>)

  datatype Visibility = Visible | Collapsed

  datatype Timer = TopmostTimer | DataTimer

  /** A host call whose order matters. */
  datatype Effect =
    | MoveAndResize(rect: RectInt32)
    | NotifyAdd(data: NotifyIconData)
    | NotifyDelete(uID: int)
    | TimerStarted(timer: Timer)
    | TimerStopped(timer: Timer)
    /** The `this.Close()` call; the window is torn down only after its Closed handler has run. */
    | CloseCalled
    | CpuCounterDisposed
    | RamSearcherDisposed

  datatype WindowState = WindowState(
    showCpuRam: bool,
    cpuRamPanel: Visibility,
    separator: Visibility,
    trayRegistered: bool,
    topmostRunning: bool,
    dataRunning: bool,
    closed: bool,
    pendingMenus: nat,
    lastRect: RectInt32,
    trace: seq<Effect>)

  /** The low 32 bits of a pointer-sized value, as `(int)` then `(uint)` casts read them. */
  function Low32(n: int): int
  {
    n % 0x1_0000_0000
  }

  /** A right-button release on this application's tray icon. */
  predicate IsTrayRightClick(m: WindowMessage)
  {
    m.uMsg == WM_TRAYICON && Low32(m.wParam) == TRAY_ICON_ID && Low32(m.lParam) == WM_RBUTTONUP
  }

  function VisibilityFor(shown: bool): Visibility
  {
    if shown then Visible else Collapsed
  }

  /** The icon registration SetupTrayIcon hands to the shell. */
  function TrayIconData(): (data: NotifyIconData)
    ensures data.uCallbackMessage == WM_TRAYICON && data.uID == TRAY_ICON_ID
    ensures data.uFlags & NIF_MESSAGE != 0 && data.uFlags & NIF_ICON != 0 && data.uFlags & NIF_TIP != 0
    ensures data.szTip == "TimeToolbar"
  {
    NotifyIconData(TRAY_ICON_ID, NIF_ICON | NIF_MESSAGE | NIF_TIP, WM_TRAYICON, "TimeToolbar")
  }

  /** The context menu: a checkable CPU/RAM item, a separator and Quit. */
  function TrayMenu(showCpuRam: bool): (m: seq<MenuEntry>)
    ensures |m| == 3
    ensures m[0].id == CMD_TOGGLE_CPU_RAM && (m[0].flags & MF_CHECKED != 0 <==> showCpuRam)
    ensures m[1].flags & MF_SEPARATOR != 0 && m[1].text == None
    ensures m[2].id == CMD_QUIT && m[2].flags & MF_CHECKED == 0
  {
    [ MenuEntry(MF_STRING | (if showCpuRam then MF_CHECKED else MF_UNCHECKED), CMD_TOGGLE_CPU_RAM, Some("Show CPU and RAM")),
      MenuEntry(MF_SEPARATOR, 0, None),
      MenuEntry(MF_STRING, CMD_QUIT, Some("Quit")) ]
  }

  /** The invariant every handler keeps. */
  predicate Consistent(s: WindowState)
  {
    && s.cpuRamPanel == VisibilityFor(s.showCpuRam)
    && s.separator == VisibilityFor(s.showCpuRam)
    && s.lastRect.height > 0
    && (s.closed ==> !s.topmostRunning && !s.dataRunning && !s.trayRegistered)
  }

  /** PositionOnTaskbar: compute the rectangle for the current display and apply it. */
  function Positioned(s: WindowState, d: Display, cfg: Config): WindowState
  {
    var r := TaskbarRect(d, cfg.xOffset, cfg.tzCount, s.showCpuRam);
    s.(lastRect := r, trace := s.trace + [MoveAndResize(r)])
  }

  /** SetupTrayIcon (NIM_ADD). */
  function TrayIconAdded(s: WindowState): WindowState
  {
    s.(trayRegistered := true, trace := s.trace + [NotifyAdd(TrayIconData())])
  }

  /** RemoveTrayIcon (NIM_DELETE). */
  function TrayIconRemoved(s: WindowState): WindowState
  {
    s.(trayRegistered := false, trace := s.trace + [NotifyDelete(TRAY_ICON_ID)])
  }

  /**
   * The state the constructor leaves: positioned for `d` while configuring,
   * icon added, both timers started, then repositioned for `d'` at the end
   * of the first refresh.
   */
  function Initial(d: Display, d': Display, cfg: Config): WindowState
  {
    var created := WindowState(true, Visible, Visible, false, false, false, false, 0, RectInt32(0, 0, 0, 0), []);
    var configured := Positioned(created, d, cfg);
    var withIcon := TrayIconAdded(configured);
    var started := withIcon.(topmostRunning := true, dataRunning := true,
                             trace := withIcon.trace + [TimerStarted(TopmostTimer), TimerStarted(DataTimer)]);
    Positioned(started, d', cfg)
  }

  /** MainWindow_Closed: stop both timers, remove the icon, dispose the counters. */
  function TornDown(s: WindowState): WindowState
  {
    var stopped := s.(topmostRunning := false, dataRunning := false,
                      trace := s.trace + [TimerStopped(TopmostTimer), TimerStopped(DataTimer)]);
    var removed := TrayIconRemoved(stopped);
    removed.(trace := removed.trace + [CpuCounterDisposed, RamSearcherDisposed])
  }

  /** Window.Close: the window closes and raises Closed, whose handler tears down. */
  function ClosedState(s: WindowState): WindowState
  {
    TornDown(s.(closed := true, trace := s.trace + [CloseCalled]))
  }

  /** Command 1: flip the flag and make both panels follow it. */
  function Toggled(s: WindowState): WindowState
  {
    var show := !s.showCpuRam;
    s.(showCpuRam := show, cpuRamPanel := VisibilityFor(show), separator := VisibilityFor(show))
  }

  /** ShowTrayContextMenu after TrackPopupMenu returned `cmd`. */
  function AfterMenu(s: WindowState, cmd: int, d: Display, cfg: Config): WindowState
  {
    if cmd == CMD_TOGGLE_CPU_RAM then Positioned(Toggled(s), d, cfg)
    else if cmd == CMD_QUIT then ClosedState(TrayIconRemoved(s))
    else s
  }

  /** SubclassProc: a right click on the icon queues one context menu on the dispatcher. */
  function AfterMessage(s: WindowState, m: WindowMessage): WindowState
  {
    if IsTrayRightClick(m) then s.(pendingMenus := s.pendingMenus + 1) else s
  }

  /** In `t`, every timer stop comes before every icon deletion. */
  predicate TimersStopBeforeIconDelete(t: seq<Effect>)
  {
    forall i, j | 0 <= i < |t| && 0 <= j < |t| && t[i].TimerStopped? && t[j].NotifyDelete? :: i < j
  }

  // ---- Properties of the handlers ----

  /** For messages whose parameters fit in 32 bits the casts are invisible: the filter is three equalities. */
  lemma RightClickFilter(m: WindowMessage)
    requires 0 <= m.wParam < 0x1_0000_0000 && 0 <= m.lParam < 0x1_0000_0000
    ensures IsTrayRightClick(m) <==> m.uMsg == 0x8001 && m.wParam == 1 && m.lParam == 0x0205
  {
  }

  /**
   * The casts keep only the low 32 bits of each parameter: changing the high
   * bits of wParam and of lParam, each on its own, never changes the verdict.
   */
  lemma RightClickIgnoresHighBits(m: WindowMessage, kw: int, kl: int)
    ensures IsTrayRightClick(m.(wParam := m.wParam + kw * 0x1_0000_0000, lParam := m.lParam + kl * 0x1_0000_0000))
        <==> IsTrayRightClick(m)
  {
  }

  /** Only the tray right click queues a menu; nothing else about the window changes. */
  lemma MessageQueuesMenu(s: WindowState, m: WindowMessage)
    ensures AfterMessage(s, m).pendingMenus == s.pendingMenus + (if IsTrayRightClick(m) then 1 else 0)
    ensures AfterMessage(s, m).(pendingMenus := s.pendingMenus) == s
  {
  }

  /**
   * Command 1 flips the flag, shows both panels exactly when the new flag
   * holds, and applies the rectangle for the new content width.
   */
  lemma ToggleShowsPanels(s: WindowState, d: Display, cfg: Config)
    ensures var t := AfterMenu(s, CMD_TOGGLE_CPU_RAM, d, cfg);
      && t.showCpuRam == !s.showCpuRam
      && (t.cpuRamPanel == Visible <==> t.showCpuRam)
      && (t.separator == Visible <==> t.showCpuRam)
      && t.lastRect == TaskbarRect(d, cfg.xOffset, cfg.tzCount, !s.showCpuRam)
      && t.trace == s.trace + [MoveAndResize(t.lastRect)]
  {
  }

  /**
   * Toggling twice on an unchanged display restores the flag, both panels and
   * the rectangle positioning would give; if the window was already placed
   * for this display, all of its state but the trace is as before.
   */
  lemma ToggleTwice(s: WindowState, d: Display, cfg: Config)
    requires Consistent(s)
    ensures var t := AfterMenu(AfterMenu(s, CMD_TOGGLE_CPU_RAM, d, cfg), CMD_TOGGLE_CPU_RAM, d, cfg);
      && t.(trace := s.trace) == Positioned(s, d, cfg).(trace := s.trace)
      && (s.lastRect == TaskbarRect(d, cfg.xOffset, cfg.tzCount, s.showCpuRam) ==> t.(trace := s.trace) == s)
  {
  }

  /** A dismissed menu (0) or any other command leaves the window exactly as it was. */
  lemma OtherCommandsInert(s: WindowState, cmd: int, d: Display, cfg: Config)
    requires cmd != CMD_TOGGLE_CPU_RAM && cmd != CMD_QUIT
    ensures AfterMenu(s, cmd, d, cfg) == s
  {
  }

  /**
   * Quit deletes the icon and then closes the window; the Closed handler
   * then stops both timers and deletes the icon a second time.  So on this
   * path the icon goes before the timers, and everything ends stopped.
   */
  lemma QuitSequence(s: WindowState, d: Display, cfg: Config)
    ensures var t := AfterMenu(s, CMD_QUIT, d, cfg);
      && t.trace == s.trace + [NotifyDelete(TRAY_ICON_ID), CloseCalled,
                               TimerStopped(TopmostTimer), TimerStopped(DataTimer), NotifyDelete(TRAY_ICON_ID),
                               CpuCounterDisposed, RamSearcherDisposed]
      && t.closed && !t.trayRegistered && !t.topmostRunning && !t.dataRunning
      && t.showCpuRam == s.showCpuRam && t.lastRect == s.lastRect
  {
  }

  /** Teardown stops both timers, and both stops come before the icon is deleted. */
  lemma TeardownOrder(s: WindowState)
    ensures var t := TornDown(s).trace;
      && |t| == |s.trace| + 5 && t[..|s.trace|] == s.trace
      && TimerStopped(TopmostTimer) in t[|s.trace|..] && TimerStopped(DataTimer) in t[|s.trace|..]
      && TimersStopBeforeIconDelete(t[|s.trace|..])
      && !TornDown(s).topmostRunning && !TornDown(s).dataRunning && !TornDown(s).trayRegistered
  {
    var u := TornDown(s).trace[|s.trace|..];
    assert u == [TimerStopped(TopmostTimer), TimerStopped(DataTimer), NotifyDelete(TRAY_ICON_ID),
                 CpuCounterDisposed, RamSearcherDisposed];
  }

  /** Two positioning passes with nothing changed apply the same rectangle twice. */
  lemma RepositionDeterministic(s: WindowState, d: Display, cfg: Config)
    ensures var once := Positioned(s, d, cfg);
      && Positioned(once, d, cfg).lastRect == once.lastRect
      && Positioned(once, d, cfg).trace == once.trace + [MoveAndResize(once.lastRect)]
      && Positioned(once, d, cfg).(trace := once.trace) == once
  {
  }

  /** The initial state is consistent: panels shown, icon added, timers running, window placed. */
  lemma InitialConsistent(d: Display, d': Display, cfg: Config)
    ensures var s := Initial(d, d', cfg);
      && Consistent(s) && s.showCpuRam && s.trayRegistered && s.topmostRunning && s.dataRunning && !s.closed
      && s.lastRect == TaskbarRect(d', cfg.xOffset, cfg.tzCount, true)
  {
  }

  /** Every handler keeps the invariant. */
  lemma HandlersPreserveConsistent(s: WindowState, d: Display, cfg: Config, cmd: int, m: WindowMessage)
    requires Consistent(s)
    ensures Consistent(Positioned(s, d, cfg))
    ensures Consistent(AfterMenu(s, cmd, d, cfg))
    ensures Consistent(AfterMessage(s, m))
    ensures Consistent(ClosedState(s)) && ClosedState(s).closed
    ensures Consistent(TrayIconRemoved(s))
  {
  }
}

=== FILE: window.dfy ===
/**
 * The toolbar window object.  Its fields are the state the window's handlers
 * change in place; `State()` reads them as a `Tray.WindowState`, and every
 * handler is proved to leave the state that the matching function of module
 * Tray describes.  Host calls whose outcome the window does not read
 * (Shell_NotifyIcon, MoveAndResize, timer start and stop, Dispose) are
 * appended to `trace`; host answers it does read (the display geometry, the
 * DPI, the command TrackPopupMenu returns) are parameters.
 */
module Toolbar {
  import opened Geometry
  import opened Placement
  import opened Tray

  class MainWindow {
    /** XOffset and the number of configured time zones, fixed for the window's life. */
    const settings: Config

    var showCpuRam: bool
    var cpuRamPanel: Visibility
    var separator: Visibility
    var trayRegistered: bool
    var topmostRunning: bool
    var dataRunning: bool
    var closed: bool
    /** Context menus queued on the dispatcher and not yet shown. */
    var pendingMenus: nat
    /** The rectangle last passed to MoveAndResize. */
    var lastRect: RectInt32
    var trace: seq<Effect>

    function State(): WindowState
      reads this
    {
      WindowState(showCpuRam, cpuRamPanel, separator, trayRegistered, topmostRunning, dataRunning,
                  closed, pendingMenus, lastRect, trace)
    }

    /** The handlers' invariant, plus at least one zone (the constructor turns an empty list into two). */
    ghost predicate Valid()
      reads this
    {
      Consistent(State()) && settings.tzCount >= 1
    }

    /**
     * Construction: a missing or empty zone list falls back to two zones;
     * the window is positioned (the host reporting `d`), the tray icon
     * added, both timers started and a first refresh run, which repositions
     * (the host reporting `d'`).
     */
    constructor (configuredZones: nat, xOffset: int, d: Display, d': Display)
      ensures settings == Config(xOffset, if configuredZones == 0 then 2 else configuredZones)
      ensures State() == Initial(d, d', settings)
      ensures Valid()
    {
      settings := Config(xOffset, if configuredZones == 0 then 2 else configuredZones);
      showCpuRam := true;
      cpuRamPanel, separator := Visible, Visible;
      trayRegistered, topmostRunning, dataRunning, closed := false, false, false, false;
      pendingMenus := 0;
      lastRect := RectInt32(0, 0, 0, 0);
      trace := [];
      new;
      PositionOnTaskbar(d);
      SetupTrayIcon();
      topmostRunning := true;
      trace := trace + [TimerStarted(TopmostTimer)];
      dataRunning := true;
      trace := trace + [TimerStarted(DataTimer)];
      PositionOnTaskbar(d');
    }

    /** Computes the taskbar rectangle for the display as the host reports it now and applies it. */
    method PositionOnTaskbar(d: Display)
      modifies this
      ensures State() == Positioned(old(State()), d, settings)
      ensures lastRect == TaskbarRect(d, settings.xOffset, settings.tzCount, showCpuRam)
      ensures old(Valid()) ==> Valid()
      ensures old(Valid()) ==> lastRect.width >= Scale(ZoneWidth + FixedWidth, d.dpi)
      ensures old(Valid()) && d.dpi >= 96 ==> lastRect.width >= ZoneWidth + FixedWidth
    {
      if settings.tzCount >= 1 {
        ScaleMonotone(ZoneWidth + FixedWidth, ContentWidthDips(showCpuRam, settings.tzCount), d.dpi);
      }
      if d.dpi >= 96 {
        WidthCoversContent(d, settings.xOffset, settings.tzCount, showCpuRam);
      }
      var r := TaskbarRect(d, settings.xOffset, settings.tzCount, showCpuRam);
      lastRect := r;
      trace := trace + [MoveAndResize(r)];
    }

    method SetupTrayIcon()
      modifies this
      ensures State() == TrayIconAdded(old(State()))
    {
      trayRegistered := true;
      trace := trace + [NotifyAdd(TrayIconData())];
    }

    method RemoveTrayIcon()
      modifies this
      ensures State() == TrayIconRemoved(old(State()))
    {
      trayRegistered := false;
      trace := trace + [NotifyDelete(TRAY_ICON_ID)];
    }

    /**
     * Shows the context menu built for the current flag; `cmd` is what
     * TrackPopupMenu returned and `d` the display if the window is repositioned.
     */
    method ShowTrayContextMenu(cmd: int, d: Display) returns (menu: seq<MenuEntry>)
      requires Valid()
      modifies this
      ensures menu == TrayMenu(old(showCpuRam))
      ensures State() == AfterMenu(old(State()), cmd, d, settings)
      ensures Valid()
    {
      menu := TrayMenu(showCpuRam);
      if cmd == CMD_TOGGLE_CPU_RAM {
        showCpuRam := !showCpuRam;
        cpuRamPanel := if showCpuRam then Visible else Collapsed;
        separator := if showCpuRam then Visible else Collapsed;
        PositionOnTaskbar(d);
      } else if cmd == CMD_QUIT {
        RemoveTrayIcon();
        Close();
      }
    }

    /**
     * The subclass procedure: a right click on the icon queues the context
     * menu; every message is passed on to the default procedure unchanged.
     */
    method SubclassProc(m: WindowMessage) returns (forwarded: WindowMessage)
      modifies this
      ensures forwarded == m
      ensures State() == AfterMessage(old(State()), m)
    {
      if m.uMsg == WM_TRAYICON && Low32(m.wParam) == TRAY_ICON_ID {
        if Low32(m.lParam) == WM_RBUTTONUP {
          pendingMenus := pendingMenus + 1;
        }
      }
      forwarded := m;
    }

    /** The dispatcher runs one queued menu request. */
    method RunQueuedMenu(cmd: int, d: Display) returns (menu: seq<MenuEntry>)
      requires Valid() && pendingMenus > 0
      modifies this
      ensures menu == TrayMenu(old(showCpuRam))
      ensures State() == AfterMenu(old(State()).(pendingMenus := old(pendingMenus) - 1), cmd, d, settings)
      ensures Valid()
    {
      pendingMenus := pendingMenus - 1;
      menu := ShowTrayContextMenu(cmd, d);
    }

    /** Window.Close: the window closes and its Closed handler runs. */
    method Close()
      requires Valid()
      modifies this
      ensures State() == ClosedState(old(State()))
      ensures Valid() && closed
    {
      closed := true;
      trace := trace + [CloseCalled];
      OnClosed();
    }

    /** The Closed handler: stop both timers, then remove the icon, then dispose the counters. */
    method OnClosed()
      modifies this
      ensures State() == TornDown(old(State()))
      ensures TimersStopBeforeIconDelete(trace[|old(trace)|..])
    {
      topmostRunning := false;
      trace := trace + [TimerStopped(TopmostTimer)];
      dataRunning := false;
      trace := trace + [TimerStopped(DataTimer)];
      RemoveTrayIcon();
      trace := trace + [CpuCounterDisposed, RamSearcherDisposed];
    }
  }
}
